=== FILE: README.md ===
# Battery State-of-Charge estimator, modelled in Dafny

This project models the State-of-Charge (SoC) estimator of a battery
dashboard (`app.py`). The dashboard reads one snapshot of measurements:
system voltage, average cell voltage, pack voltage, remaining energy, energy
used, average current, uptime, and the minimum and maximum cell voltage. From
that snapshot it computes up to seven independent SoC estimates:

- three clamped linear interpolations, over the system, cell and pack voltage ranges;
- a nearest-point lookup in a measured system-voltage table;
- an estimate from remaining energy, one from energy used, and one from current times uptime.

Each of the last three is present only when its guard reading is positive.
The dashboard averages the estimates that are present and rounds the mean
to two decimals. It also reports the cell-voltage spread in millivolts and
warns when the spread is above 20 mV.

All arithmetic is over Dafny's `real`. The calibration table is an
immutable `seq<CalPoint>` in the source's insertion order, highest voltage
first. Estimates that may be missing are `Option<real>`.

Modules, one per concept:

- `Wrappers`: `Option`.
- `RealArith`: `Abs` and small ordering facts about division.
- `Calibration`: capacity, the three voltage ranges, the system table.
- `Interpolation`: `interpolate_soc` and its three uses.
- `NearestLookup`: `system_voltage_soc_lookup`.
- `Estimators`: the three optional estimators.
- `Blend`: mean and two-decimal rounding.
- `Diagnostics`: the imbalance check.
- `SocEstimator`: one snapshot in, the breakdown, the blended SoC and the diagnostic out.

`app.py` has no failing estimator, so the model has no error results:

- Its only table method is the nearest-point search (`app.py:60`). That search always returns a table value, so no voltage is out of range for it.
- Its blend list always starts with the four voltage-based estimates (`app.py:75`), so the mean never divides by zero. `BlendInputs` proves the list has 4 to 7 entries.

The code itself is also inconsistent in one place. The interpolation puts 10% SoC at 769.20 V (`MIN_SYSTEM_VOLTAGE`), but the measured table puts 10% at 771.05 V. The two system-voltage estimates therefore differ near the bottom of the range. The model keeps both constants exactly as written, and `NearestLookup.SystemVoltageEstimatesDisagree` shows the gap: at 771.05 V the interpolation is above 10% while the table reads exactly 10%.

## Model

| member | source | states |
|---|---|---|
| Calibration.SystemTable | app.py:13-35 | The table has 21 points, running from (810.00 V, 100%) to (766.55 V, 0%). Each voltage is strictly below the one before it. The SoC at position i is 100 - 5i. |
| Calibration.SystemTableIsCurve | app.py:13-35 | Voltages strictly decrease between any two points, not only neighbours. SoC never rises along the table, and each step drops it by exactly 5. |
| Calibration.AdjacentDescendingIsStrict | app.py:13-35 | If each voltage is below its neighbour, then every voltage is below every earlier one. So the dictionary keys are pairwise distinct. |
| Calibration.ConfiguredRangesOrdered | app.py:5-10 | In each configured pair (cell, pack, system), the 10% voltage is strictly below the 100% voltage. |
| Interpolation.InterpolateSoc | app.py:56-57 | The result is never below `min_soc`. When `min_soc <= max_soc`, it is never above `max_soc` either, even for voltages outside the calibrated range. The caller must pass `min_v != max_v`; the source divides by their difference. |
| Interpolation.InterpolateOnLine | app.py:57 | Inside `[min_v, max_v]` nothing is clamped. The result lies on the line through `(min_v, min_soc)` and `(max_v, max_soc)`, stated in cross-multiplied form. |
| Interpolation.InterpolateEndpoints | app.py:57 | `min_v` maps to exactly `min_soc`, and `max_v` maps to exactly `max_soc`. |
| Interpolation.InterpolateClampsOutside | app.py:57 | Any voltage at or below `min_v` gives `min_soc`. Any voltage at or above `max_v` gives `max_soc`. |
| Interpolation.InterpolateMonotone | app.py:57 | A higher voltage never gives a lower SoC. |
| Interpolation.SystemVoltageSoc | app.py:63 | The system-voltage estimate lies in [10, 100]. It is 10 at or below 769.20 V and 100 at or above 810.0 V. |
| Interpolation.CellVoltageSoc | app.py:65 | The cell-voltage estimate lies in [10, 100]. It is 10 at or below 3.205 V and 100 at or above 3.375 V. |
| Interpolation.PackVoltageSoc | app.py:66 | The pack-voltage estimate lies in [10, 100]. It is 10 at or below 51.28 V and 100 at or above 54.0 V. |
| NearestLookup.NearestAmong | app.py:60 | The left-to-right scan of the first n keys returns an index whose distance is minimal among them. Every earlier index is strictly farther, so the first minimal key wins, as with Python's `min`. |
| NearestLookup.NearestIndex | app.py:60 | On a non-empty table, the chosen index is the first nearest one: no point is closer, and every earlier point is strictly farther. |
| NearestLookup.FirstNearestUnique | app.py:60 | At most one index meets the first-nearest rule. |
| NearestLookup.NearestIndexCharacterized | app.py:60 | The lookup returns index i exactly when i meets the first-nearest rule. Both directions are proved. |
| NearestLookup.NearestSoc | app.py:60 | The returned SoC is a table value, taken from a first-nearest point. |
| NearestLookup.NearestAtCalibrationPoint | app.py:60 | Suppose the keys are strictly decreasing. Looking up a key's own voltage then returns that key's index and its SoC. |
| NearestLookup.NearestSocMonotone | app.py:59-60 | Take a table with strictly decreasing voltages and non-increasing SoC. A higher measured voltage never gives a lower looked-up SoC, ties included. |
| NearestLookup.SystemVoltageTableSoc | app.py:59-60 | The system-table lookup returns the SoC of a first-nearest point of the measured table, and that SoC lies in [0, 100]. |
| NearestLookup.SystemLookupAtCalibrationPoint | app.py:59-60 | 787.95 V, a point of the table, reads as exactly 50%. |
| NearestLookup.SystemLookupBetweenPoints | app.py:59-60 | 805.0 V is closer to 804.60 V than to 810.00 V, so it reads as 95%. |
| NearestLookup.SystemLookupTieGoesToHigherVoltage | app.py:59-60 | 798.6 V is equally far from 799.20 V and 798.00 V. The tie goes to the earlier, higher-voltage key, so it reads as 85%. |
| NearestLookup.SystemVoltageTableSocMonotone | app.py:59-60 | In the system table, a higher measured voltage never gives a lower looked-up SoC. |
| NearestLookup.SystemVoltageEstimatesDisagree | app.py:10-32 | At 771.05 V the interpolated system estimate is above 10%, while the table lookup reads exactly 10%. The two system-voltage estimates use different 10% voltages. |
| Estimators.RemainingEnergySoc | app.py:67 | The estimate is present exactly when remaining energy is above 0. Then estimate × 215 = remaining × 100. Under the form's bound (remaining <= 215 kWh) it lies in (0, 100]. |
| Estimators.UsedEnergySoc | app.py:68 | The estimate is present exactly when energy used is above 0. Then (100 − estimate) × 215 = used × 100. Under the form's bound (used <= 215 kWh) it lies in [0, 100). |
| Estimators.CurrentSoc | app.py:69-72 | The estimate is present exactly when both current and uptime are above 0. Then (100 − estimate) × 215 × 10 = voltage × current × uptime. For a positive voltage it is strictly below 100. |
| Estimators.CurrentSocCanBeNegative | app.py:69-72 | The current-based estimate is not clamped. 800 V at 100 A for 10 h gives a negative SoC. |
| Blend.Mean | app.py:79 | The mean of a non-empty list, multiplied by the list length, gives back the sum. |
| Blend.MeanWithinRange | app.py:79 | The mean of a non-empty list lies between the list's minimum and maximum. |
| Blend.MeanBetween | app.py:79 | Any bounds that hold for every entry also hold for the mean. |
| Blend.SumBetween | app.py:79 | If every entry lies in [lo, hi], the sum lies in [n·lo, n·hi], where n is the list length. |
| Blend.Hundredths | app.py:79 | The rounded count of hundredths is within 1/2 of 100·x. An exact half goes to the even neighbour. |
| Blend.HundredthsNearest | app.py:79 | No integer count of hundredths is closer to 100·x than the rounded one. |
| Blend.RoundTwoDecimals | app.py:79 | Rounding to two decimals moves a value by at most 0.005, and the result is a whole number of hundredths. |
| Blend.RoundTwoDecimalsKeepsHundredths | app.py:79 | A value that is already a whole number of hundredths is left unchanged. |
| Blend.RoundTwoDecimalsAtMost | app.py:79 | Rounding never goes above a whole-hundredth upper bound of its input. |
| Blend.RoundTwoDecimalsAtLeast | app.py:79 | Rounding never goes below a whole-hundredth lower bound of its input. |
| Blend.RoundedMean | app.py:79 | The result is the mean rounded to two decimals: times 100 it is exactly the rounded count of hundredths of the mean. The rounded mean is within 0.005 of the exact mean. It lies within 0.005 of the range of the entries. |
| Blend.BlendOfThreeExample | app.py:79 | The estimates 100, 90 and 95 blend to 95.0. |
| Diagnostics.CellImbalance | app.py:97-101 | The diagnostic exists exactly when both cell voltages are positive. Its delta in mV, divided by 1000, is the voltage spread. It warns exactly when the spread exceeds 0.02 V. |
| Diagnostics.ImbalanceAtThreshold | app.py:98-100 | Over exact reals, 3.20 V and 3.22 V are exactly 20 mV apart, and a spread of exactly 20 mV does not warn. |
| Diagnostics.ImbalanceJustAboveThreshold | app.py:98-100 | 3.20 V and 3.2201 V give 20.1 mV, which warns. |
| Diagnostics.ImbalanceWarnMonotone | app.py:97-100 | For any two pairs of positive readings, the one with the wider spread has the larger delta. If the narrower pair warns, the wider pair warns too. |
| Diagnostics.ImbalanceShiftInvariant | app.py:97-100 | Shifting both readings by the same amount, with both staying positive, changes neither the delta nor the warning. |
| SocEstimator.Estimate | app.py:63-72 | The three interpolated estimates lie in [10, 100], and the table estimate lies in [0, 100]. Each optional estimate is present exactly when its guard holds. For accepted form input, remaining-energy lies in (0, 100], energy-used in [0, 100), and current-based below 100. |
| SocEstimator.EstimateTableWiring | app.py:64 | The table estimate is the SoC of a first-nearest point of the system table to the measured system voltage. |
| SocEstimator.EstimateVoltageWiring | app.py:63-66 | The system, cell and pack estimates each read their own voltage against their own range. At or below the range each is 10, at or above it each is 100, and inside it each lies on its range's line. |
| SocEstimator.EstimateEnergyWiring | app.py:67-68 | A present remaining-energy estimate times 215 equals the remaining energy times 100. A present energy-used estimate satisfies (100 − estimate) × 215 = used × 100. |
| SocEstimator.EstimateCurrentWiring | app.py:69-72 | The current-based estimate is computed from the system voltage, the average current and the uptime. It is present exactly when current and uptime are both above 0. |
| SocEstimator.BlendInputs | app.py:75-78 | The blend list has 4 to 7 entries: 4 plus the number of present optional estimates. The four voltage-based estimates come first, then remaining-energy, energy-used and current-based, each only when present. |
| SocEstimator.BlendInputsComeFromBreakdown | app.py:75-78 | Every entry of the blend list is one of the breakdown's estimates. |
| SocEstimator.FinalSoc | app.py:79 | The blended SoC is the mean of the blend list rounded to two decimals: times 100 it is exactly the rounded count of hundredths of that mean. The blended SoC is within 0.005 of the mean of the blend list. It lies within 0.005 of the range of that list. |
| SocEstimator.FinalSocBounds | app.py:63-79 | For accepted form input, the blended SoC is at most 100%. It is also at least 0% whenever the current-based estimate is absent. |
| SocEstimator.Run | app.py:63-101 | The report carries the breakdown and the blended SoC of that breakdown. The imbalance diagnostic is present exactly when both cell voltages are positive. Its delta in mV, divided by 1000, is the spread between the maximum and minimum cell voltage, and it warns exactly when that spread exceeds 0.02 V. |
| SocEstimator.ImbalanceAlwaysReported | app.py:52-53 | The form accepts cell voltages only from 2 V upward. So for accepted input the imbalance guard always passes and the diagnostic is always reported. |

## Left out

- `SOC_app.py`: the message-broker client, its listener thread, session state and credentials are I/O and concurrency with no estimation logic.
- User-interface calls in `app.py` (page set-up, the input widgets, the button, the text and warning output). The input widgets' ranges appear only as the `WithinInputBounds` predicate. The warning survives only as the `warn` flag of `Imbalance`. The button does not gate any computation in the model. The source computes every estimate before the button is pressed. It computes the imbalance diagnostic only after the press (`app.py:82`, `app.py:97-101`), but `SocEstimator.Run` always computes it.
- Floating-point effects. Every quantity is a `real`, so the rounding error of each float operation is not modelled. Nor are near-ties in the nearest-point search that only float error would break.
- Blend.RoundTwoDecimals: `round(x, 2)` is modelled as rounding the exact real value to the nearest hundredth, with ties to even. Python applies this rule to the exact binary value of the float, which the model does not represent.
- Interpolation.InterpolateSoc: a call with `min_v == max_v` raises a division-by-zero error in the source. The model excludes it by precondition rather than modelling the exception, and every configured range satisfies it.
- Diagnostics.ImbalanceAtThreshold: the program itself warns at 3.20 V and 3.22 V. In doubles, (3.22 − 3.20) × 1000 is 20.000000000000018, which is above 20. On the form's 0.001 V grid, no pair of readings gives exactly 20.0 mV. The lemma is about exact reals.

=== FILE: blend.dfy ===
/** Combining the estimates: arithmetic mean, and rounding to two decimals
    the way Python's `round(x, 2)` does (nearest hundredth, ties to even). */
module Blend {
  import opened RealArith

  function Sum(xs: seq<real>): real {
    if |xs| == 0 then 0.0 else xs[0] + Sum(xs[1..])
  }

  /** Smallest entry of a non-empty sequence. */
  function Min(xs: seq<real>): (m: real)
    requires |xs| > 0
    ensures m in xs
    ensures forall i :: 0 <= i < |xs| ==> m <= xs[i]
  {
    if |xs| == 1 then xs[0]
    else
      var rest := Min(xs[1..]);
      if xs[0] <= rest then xs[0] else rest
  }

  /** Largest entry of a non-empty sequence. */
  function Max(xs: seq<real>): (m: real)
    requires |xs| > 0
    ensures m in xs
    ensures forall i :: 0 <= i < |xs| ==> xs[i] <= m
  {
    if |xs| == 1 then xs[0]
    else
      var rest := Max(xs[1..]);
      if xs[0] >= rest then xs[0] else rest
  }

  /** A sum of entries that all lie in [lo, hi] lies between |xs| * lo and |xs| * hi. */
  lemma {:induction false} SumBetween(xs: seq<real>, lo: real, hi: real)
    requires forall i :: 0 <= i < |xs| ==> lo <= xs[i] <= hi
    ensures |xs| as real * lo <= Sum(xs) <= |xs| as real * hi
  {
    if |xs| > 0 {
      SumBetween(xs[1..], lo, hi);
      assert |xs| as real * lo == lo + (|xs| - 1) as real * lo;
      assert |xs| as real * hi == hi + (|xs| - 1) as real * hi;
    }
  }

  /** Arithmetic mean of a non-empty sequence: times the number of entries it
      gives back the sum. */
  function Mean(xs: seq<real>): (m: real)
    requires |xs| > 0
    ensures m * (|xs| as real) == Sum(xs)
  {
    Quotient(Sum(xs), |xs| as real)
  }

  /** Any bounds that hold for every entry hold for the mean. */
  lemma MeanBetween(xs: seq<real>, lo: real, hi: real)
    requires |xs| > 0
    requires forall i :: 0 <= i < |xs| ==> lo <= xs[i] <= hi
    ensures lo <= Mean(xs) <= hi
  {
    var total, n := Sum(xs), |xs| as real;
    SumBetween(xs, lo, hi);
    AverageBounds(total, n, lo, hi);
    assert Mean(xs) == total / n;
  }

  /** The mean never leaves the range of the entries. */
  lemma MeanWithinRange(xs: seq<real>)
    requires |xs| > 0
    ensures Min(xs) <= Mean(xs) <= Max(xs)
  {
    MeanBetween(xs, Min(xs), Max(xs));
  }

  /** `x` scaled to hundredths and rounded to the nearest integer; an exact
      half goes to the even neighbour. */
  function Hundredths(x: real): (n: int)
    ensures Abs(n as real - x * 100.0) <= 0.5
    ensures (x * 100.0 - (x * 100.0).Floor as real == 0.5) ==> n % 2 == 0
  {
    var scaled := x * 100.0;
    var below := scaled.Floor;
    var frac := scaled - below as real;
    if frac < 0.5 then below
    else if frac > 0.5 then below + 1
    else if below % 2 == 0 then below else below + 1
  }

  /** No integer is closer to `x` in hundredths than the rounded one. */
  lemma HundredthsNearest(x: real, k: int)
    ensures Abs(Hundredths(x) as real - x * 100.0) <= Abs(k as real - x * 100.0)
  {
    var below := (x * 100.0).Floor;
    assert k <= below || below + 1 <= k;
  }

  /** `x` rounded to two decimals: within half a hundredth of `x`. */
  function RoundTwoDecimals(x: real): (r: real)
    ensures Abs(r - x) <= 0.005
    ensures r * 100.0 == Hundredths(x) as real
  {
    Hundredths(x) as real / 100.0
  }

  /** A value that already has at most two decimals is left unchanged. */
  lemma RoundTwoDecimalsKeepsHundredths(k: int)
    ensures RoundTwoDecimals(k as real / 100.0) == k as real / 100.0
  {
    assert (k as real / 100.0 * 100.0).Floor == k;
  }

  /** Rounding never goes above a whole number of hundredths that bounds the input. */
  lemma RoundTwoDecimalsAtMost(x: real, hi: int)
    requires x <= hi as real / 100.0
    ensures RoundTwoDecimals(x) <= hi as real / 100.0
  {
    var below := (x * 100.0).Floor;
    assert Hundredths(x) == below + 1 ==> below + 1 <= hi;
  }

  /** Rounding never goes below a whole number of hundredths that bounds the input. */
  lemma RoundTwoDecimalsAtLeast(x: real, lo: int)
    requires lo as real / 100.0 <= x
    ensures lo as real / 100.0 <= RoundTwoDecimals(x)
  {
    assert lo <= (x * 100.0).Floor;
  }

  /** The blend: the mean rounded to two decimals, within half a hundredth of
      the range of the entries. */
  function RoundedMean(xs: seq<real>): (r: real)
    requires |xs| > 0
    ensures r * 100.0 == Hundredths(Mean(xs)) as real
    ensures Abs(r - Mean(xs)) <= 0.005
    ensures Min(xs) - 0.005 <= r <= Max(xs) + 0.005
  {
    MeanWithinRange(xs);
    RoundTwoDecimals(Mean(xs))
  }

  /** The mean of 100, 90 and 95 is 95, already whole hundredths. */
  lemma BlendOfThreeExample()
    ensures RoundedMean([100.0, 90.0, 95.0]) == 95.0
  {
    assert Sum([100.0, 90.0, 95.0]) == 285.0;
    RoundTwoDecimalsKeepsHundredths(9500);
  }
}

=== FILE: calibration.dfy ===
/** The estimator's static configuration: pack capacity, the three calibrated
    voltage ranges, and the measured system-voltage-to-SoC table. */
module Calibration {

  /** Usable pack energy, in kWh. */
  const CapacityKwh: real := 215.0

  /** Average cell voltage at 100% and at 10% SoC. */
  const MaxCellVoltage: real := 3.375
  const MinCellVoltage: real := 3.205

  /** Pack voltage at 100% and at 10% SoC. */
  const MaxPackVoltage: real := 54.0
  const MinPackVoltage: real := 51.28

  /** System (series stack) voltage at 100% and at 10% SoC. */
  const MaxSystemVoltage: real := 810.0
  const MinSystemVoltage: real := 769.20

  /** The SoC the interpolated estimators assign to the bottom and the top of
      each calibrated voltage range. */
  const FloorSoc: real := 10.0
  const FullSoc: real := 100.0

  /** One measured calibration point: a system voltage and its SoC percentage. */
  datatype CalPoint = CalPoint(voltage: real, soc: real)

  ghost predicate AdjacentDescending(t: seq<CalPoint>) {
    forall i :: 0 <= i < |t| - 1 ==> t[i].voltage > t[i + 1].voltage
  }

  /** Voltages go strictly down along the table, so no two points share a key. */
  ghost predicate StrictlyDescending(t: seq<CalPoint>) {
    forall i, j :: 0 <= i < j < |t| ==> t[i].voltage > t[j].voltage
  }

  /** SoC never goes up along the table. */
  ghost predicate SocNonIncreasing(t: seq<CalPoint>) {
    forall i, j :: 0 <= i < j < |t| ==> t[i].soc >= t[j].soc
  }

  /** The measured system-voltage table in its insertion order, highest voltage first. */
  function SystemTable(): (t: seq<CalPoint>)
    ensures |t| == 21
    ensures t[0] == CalPoint(810.00, 100.0)
    ensures t[20] == CalPoint(766.55, 0.0)
    ensures AdjacentDescending(t)
    ensures forall i :: 0 <= i < |t| ==> t[i].soc == 100.0 - 5.0 * i as real
  {
    [ CalPoint(810.00, 100.0), CalPoint(804.60, 95.0), CalPoint(800.70, 90.0),
      CalPoint(799.20, 85.0),  CalPoint(798.00, 80.0), CalPoint(796.90, 75.0),
      CalPoint(795.80, 70.0),  CalPoint(794.40, 65.0), CalPoint(792.90, 60.0),
      CalPoint(790.70, 55.0),  CalPoint(787.95, 50.0), CalPoint(786.80, 45.0),
      CalPoint(784.55, 40.0),  CalPoint(782.30, 35.0), CalPoint(780.05, 30.0),
      CalPoint(777.80, 25.0),  CalPoint(775.55, 20.0), CalPoint(773.30, 15.0),
      CalPoint(771.05, 10.0),  CalPoint(768.80, 5.0),  CalPoint(766.55, 0.0) ]
  }

  lemma {:induction false} DescendingBetween(t: seq<CalPoint>, i: int, j: int)
    requires AdjacentDescending(t)
    requires 0 <= i < j < |t|
    ensures t[i].voltage > t[j].voltage
    decreases j - i
  {
    if i + 1 < j {
      DescendingBetween(t, i + 1, j);
    }
  }

  /** Strict descent between neighbours is strict descent between any two points. */
  lemma AdjacentDescendingIsStrict(t: seq<CalPoint>)
    requires AdjacentDescending(t)
    ensures StrictlyDescending(t)
  {
    forall i, j | 0 <= i < j < |t|
      ensures t[i].voltage > t[j].voltage
    {
      DescendingBetween(t, i, j);
    }
  }

  /** The system table is a well-formed calibration curve: voltages strictly
      decreasing from 810.00 V to 766.55 V, SoC falling from 100 to 0 in steps of 5. */
  lemma SystemTableIsCurve()
    ensures StrictlyDescending(SystemTable())
    ensures SocNonIncreasing(SystemTable())
    ensures forall i :: 0 <= i < |SystemTable()| - 1 ==>
              SystemTable()[i].soc - SystemTable()[i + 1].soc == 5.0
  {
    AdjacentDescendingIsStrict(SystemTable());
  }

  /** Each configured voltage range is non-empty and ordered, as the
      interpolation needs. */
  lemma ConfiguredRangesOrdered()
    ensures MinCellVoltage < MaxCellVoltage
    ensures MinPackVoltage < MaxPackVoltage
    ensures MinSystemVoltage < MaxSystemVoltage
    ensures FloorSoc <= FullSoc
  {
  }
}

=== FILE: diagnostics.dfy ===
/** The cell-imbalance diagnostic: the spread between the lowest and highest
    cell voltage, in millivolts, and whether it is high enough to warn about. */
module Diagnostics {
  import opened Wrappers

  /** Spread above which the imbalance warning is raised, in mV. */
  const ImbalanceThresholdMv: real := 20.0

  datatype Imbalance = Imbalance(deltaMv: real, warn: bool)

  /** Present only when both cell voltages are positive; the warning is raised
      only for a spread strictly above the threshold. */
  function CellImbalance(minCell: real, maxCell: real): (r: Option<Imbalance>)
    ensures r.Some? <==> minCell > 0.0 && maxCell > 0.0
    ensures r.Some? ==> r.value.deltaMv / 1000.0 == maxCell - minCell
    ensures r.Some? ==> (r.value.warn <==> maxCell - minCell > 0.02)
  {
    if maxCell > 0.0 && minCell > 0.0 then
      var delta := (maxCell - minCell) * 1000.0;
      Some(Imbalance(delta, delta > ImbalanceThresholdMv))
    else
      None
  }

  /** Over exact reals, a 20 mV spread (3.20 V to 3.22 V) sits on the threshold
      and does not warn. */
  lemma ImbalanceAtThreshold()
    ensures CellImbalance(3.20, 3.22) == Some(Imbalance(20.0, false))
  {
  }

  /** Any spread above 20 mV warns, however small the excess (3.20 V to 3.2201 V). */
  lemma ImbalanceJustAboveThreshold()
    ensures CellImbalance(3.20, 3.2201) == Some(Imbalance(20.1, true))
  {
  }

  /** The warning depends only on the spread and is monotone in it: a reading
      pair that warns still warns when its spread grows. */
  lemma ImbalanceWarnMonotone(min1: real, max1: real, min2: real, max2: real)
    requires min1 > 0.0 && max1 > 0.0 && min2 > 0.0 && max2 > 0.0
    requires max1 - min1 <= max2 - min2
    ensures CellImbalance(min1, max1).value.warn ==> CellImbalance(min2, max2).value.warn
    ensures CellImbalance(min1, max1).value.deltaMv <= CellImbalance(min2, max2).value.deltaMv
  {
  }

  /** Shifting both readings by the same amount changes neither the spread nor
      the warning, as long as both stay positive. */
  lemma ImbalanceShiftInvariant(minCell: real, maxCell: real, shift: real)
    requires minCell > 0.0 && maxCell > 0.0
    requires minCell + shift > 0.0 && maxCell + shift > 0.0
    ensures CellImbalance(minCell + shift, maxCell + shift) == CellImbalance(minCell, maxCell)
  {
  }
}

=== FILE: estimators.dfy ===
/** The estimators that contribute only when their guard input is strictly
    positive: remaining energy, energy used, and current integrated over uptime. */
module Estimators {
  import opened Wrappers
  import opened Calibration

  /** SoC as the share of capacity still stored; absent unless `remaining > 0`. */
  function RemainingEnergySoc(remaining: real): (r: Option<real>)
    ensures r.Some? <==> remaining > 0.0
    ensures r.Some? ==> r.value * CapacityKwh == remaining * 100.0
    ensures r.Some? && remaining <= CapacityKwh ==> 0.0 < r.value <= 100.0
  {
    if remaining > 0.0 then Some(remaining / CapacityKwh * 100.0) else None
  }

  /** SoC as the share of capacity not yet drawn; absent unless `used > 0`. */
  function UsedEnergySoc(used: real): (r: Option<real>)
    ensures r.Some? <==> used > 0.0
    ensures r.Some? ==> (100.0 - r.value) * CapacityKwh == used * 100.0
    ensures r.Some? && used <= CapacityKwh ==> 0.0 <= r.value < 100.0
  {
    if used > 0.0 then Some((1.0 - used / CapacityKwh) * 100.0) else None
  }

  /** SoC from the energy drawn at `current` amps and `voltage` volts over
      `uptime` hours (V * A * h / 1000 kWh); absent unless both `current` and
      `uptime` are positive. The result is not clamped. */
  function CurrentSoc(voltage: real, current: real, uptime: real): (r: Option<real>)
    ensures r.Some? <==> current > 0.0 && uptime > 0.0
    ensures r.Some? ==> (100.0 - r.value) * CapacityKwh * 10.0 == voltage * current * uptime
    ensures r.Some? && voltage > 0.0 ==> r.value < 100.0
  {
    if current > 0.0 && uptime > 0.0 then
      var drawnKwh := voltage * current * uptime / 1000.0;
      assert voltage > 0.0 ==> voltage * current > 0.0;
      assert voltage > 0.0 ==> voltage * current * uptime > 0.0;
      Some((1.0 - drawnKwh / CapacityKwh) * 100.0)
    else
      None
  }

  /** Drawing more energy than the pack holds drives the current-based
      estimate below zero: 800 V at 100 A for 10 h is 800 kWh against 215 kWh. */
  lemma CurrentSocCanBeNegative()
    ensures CurrentSoc(800.0, 100.0, 10.0).Some?
    ensures CurrentSoc(800.0, 100.0, 10.0).value < 0.0
  {
  }
}

=== FILE: interpolation.dfy ===
/** Clamped linear interpolation of a voltage onto an SoC range, and the three
    voltage channels (system, average cell, pack) that use it. */
module Interpolation {
  import opened RealArith
  import opened Calibration

  /** Maps `voltage` linearly so that `minV` goes to `minSoc` and `maxV` to
      `maxSoc`, then caps the result at `maxSoc` and floors it at `minSoc`
      (the floor is applied last, so it wins when the two bounds cross). */
  function InterpolateSoc(voltage: real, minV: real, maxV: real, minSoc: real, maxSoc: real): (r: real)
    requires minV != maxV
    ensures minSoc <= r
    ensures minSoc <= maxSoc ==> r <= maxSoc
  {
    var line := (voltage - minV) / (maxV - minV) * (maxSoc - minSoc) + minSoc;
    var capped := if line < maxSoc then line else maxSoc;
    if capped > minSoc then capped else minSoc
  }

  /** Inside the calibrated range no clamping happens: the result lies on the
      straight line through (minV, minSoc) and (maxV, maxSoc). */
  lemma InterpolateOnLine(voltage: real, minV: real, maxV: real, minSoc: real, maxSoc: real)
    requires minV < maxV && minSoc <= maxSoc
    requires minV <= voltage <= maxV
    ensures (InterpolateSoc(voltage, minV, maxV, minSoc, maxSoc) - minSoc) * (maxV - minV)
            == (voltage - minV) * (maxSoc - minSoc)
  {
    var f := (voltage - minV) / (maxV - minV);
    FractionScaleBounds(voltage - minV, maxV - minV, maxSoc - minSoc);
    assert f * (maxV - minV) == voltage - minV;
    assert f * (maxSoc - minSoc) * (maxV - minV) == f * (maxV - minV) * (maxSoc - minSoc);
  }

  /** The calibrated end points map exactly to the end SoCs. */
  lemma InterpolateEndpoints(minV: real, maxV: real, minSoc: real, maxSoc: real)
    requires minV < maxV && minSoc <= maxSoc
    ensures InterpolateSoc(minV, minV, maxV, minSoc, maxSoc) == minSoc
    ensures InterpolateSoc(maxV, minV, maxV, minSoc, maxSoc) == maxSoc
  {
    assert (maxV - minV) / (maxV - minV) == 1.0;
  }

  /** Below the range the result is pinned to `minSoc`, above it to `maxSoc`. */
  lemma InterpolateClampsOutside(voltage: real, minV: real, maxV: real, minSoc: real, maxSoc: real)
    requires minV < maxV && minSoc <= maxSoc
    ensures voltage <= minV ==> InterpolateSoc(voltage, minV, maxV, minSoc, maxSoc) == minSoc
    ensures maxV <= voltage ==> InterpolateSoc(voltage, minV, maxV, minSoc, maxSoc) == maxSoc
  {
    if voltage <= minV {
      ScaleMonotone(voltage - minV, 0.0, maxV - minV, maxSoc - minSoc);
    }
    if maxV <= voltage {
      QuotientScaleAtLeast(voltage - minV, maxV - minV, maxSoc - minSoc);
    }
  }

  /** A higher voltage never gives a lower SoC. */
  lemma InterpolateMonotone(v1: real, v2: real, minV: real, maxV: real, minSoc: real, maxSoc: real)
    requires minV < maxV && minSoc <= maxSoc
    requires v1 <= v2
    ensures InterpolateSoc(v1, minV, maxV, minSoc, maxSoc) <= InterpolateSoc(v2, minV, maxV, minSoc, maxSoc)
  {
    ScaleMonotone(v1 - minV, v2 - minV, maxV - minV, maxSoc - minSoc);
  }

  /** SoC from the system voltage, over the 769.20 V .. 810.0 V range. */
  function SystemVoltageSoc(voltage: real): (r: real)
    ensures FloorSoc <= r <= FullSoc
    ensures voltage <= MinSystemVoltage ==> r == FloorSoc
    ensures MaxSystemVoltage <= voltage ==> r == FullSoc
  {
    InterpolateClampsOutside(voltage, MinSystemVoltage, MaxSystemVoltage, FloorSoc, FullSoc);
    InterpolateSoc(voltage, MinSystemVoltage, MaxSystemVoltage, FloorSoc, FullSoc)
  }

  /** SoC from the average cell voltage, over the 3.205 V .. 3.375 V range. */
  function CellVoltageSoc(voltage: real): (r: real)
    ensures FloorSoc <= r <= FullSoc
    ensures voltage <= MinCellVoltage ==> r == FloorSoc
    ensures MaxCellVoltage <= voltage ==> r == FullSoc
  {
    InterpolateClampsOutside(voltage, MinCellVoltage, MaxCellVoltage, FloorSoc, FullSoc);
    InterpolateSoc(voltage, MinCellVoltage, MaxCellVoltage, FloorSoc, FullSoc)
  }

  /** SoC from the pack voltage, over the 51.28 V .. 54.0 V range. */
  function PackVoltageSoc(voltage: real): (r: real)
    ensures FloorSoc <= r <= FullSoc
    ensures voltage <= MinPackVoltage ==> r == FloorSoc
    ensures MaxPackVoltage <= voltage ==> r == FullSoc
  {
    InterpolateClampsOutside(voltage, MinPackVoltage, MaxPackVoltage, FloorSoc, FullSoc);
    InterpolateSoc(voltage, MinPackVoltage, MaxPackVoltage, FloorSoc, FullSoc)
  }
}

=== FILE: nearest_lookup.dfy ===
/** Nearest-point lookup in a calibration table: the SoC of the point whose
    voltage is closest to the measured one, with ties going to the point met
    first in table order. */
module NearestLookup {
  import opened RealArith
  import opened Calibration
  import opened Interpolation

  /** Distance of a table point from the measured voltage. */
  function Distance(p: CalPoint, voltage: real): real {
    Abs(p.voltage - voltage)
  }

  /** `i` is the first index of `t` whose point is as close to `voltage` as
      any: every point is at least as far, and every earlier point is farther. */
  ghost predicate IsFirstNearest(t: seq<CalPoint>, voltage: real, i: int) {
    && 0 <= i < |t|
    && (forall j :: 0 <= j < |t| ==> Distance(t[i], voltage) <= Distance(t[j], voltage))
    && (forall j :: 0 <= j < i ==> Distance(t[i], voltage) < Distance(t[j], voltage))
  }

  /** The running minimum over the first `n` points, scanning in table order
      and replacing the candidate only by a strictly closer point. */
  function NearestAmong(t: seq<CalPoint>, voltage: real, n: nat): (i: nat)
    requires 0 < n <= |t|
    ensures i < n
    ensures forall j :: 0 <= j < n ==> Distance(t[i], voltage) <= Distance(t[j], voltage)
    ensures forall j :: 0 <= j < i ==> Distance(t[i], voltage) < Distance(t[j], voltage)
    decreases n
  {
    if n == 1 then 0
    else
      var best := NearestAmong(t, voltage, n - 1);
      if Distance(t[n - 1], voltage) < Distance(t[best], voltage) then n - 1 else best
  }

  /** Index of the point nearest to `voltage`; the table must not be empty. */
  function NearestIndex(t: seq<CalPoint>, voltage: real): (i: nat)
    requires |t| > 0
    ensures IsFirstNearest(t, voltage, i)
  {
    NearestAmong(t, voltage, |t|)
  }

  /** At most one index is the first nearest one. */
  lemma FirstNearestUnique(t: seq<CalPoint>, voltage: real, i: int, k: int)
    requires IsFirstNearest(t, voltage, i)
    requires IsFirstNearest(t, voltage, k)
    ensures i == k
  {
    // An earlier first-nearest index would be strictly closer than the later one.
    var di, dk := Distance(t[i], voltage), Distance(t[k], voltage);
    assert i < k ==> dk < di;
    assert k < i ==> di < dk;
  }

  /** The lookup picks exactly the index the first-nearest rule describes. */
  lemma NearestIndexCharacterized(t: seq<CalPoint>, voltage: real, i: int)
    requires |t| > 0
    ensures NearestIndex(t, voltage) == i <==> IsFirstNearest(t, voltage, i)
  {
    if IsFirstNearest(t, voltage, i) {
      FirstNearestUnique(t, voltage, i, NearestIndex(t, voltage));
    }
  }

  /** SoC of the nearest point, as read back from the table. */
  function NearestSoc(t: seq<CalPoint>, voltage: real): (r: real)
    requires |t| > 0
    ensures exists i :: IsFirstNearest(t, voltage, i) && r == t[i].soc
  {
    t[NearestIndex(t, voltage)].soc
  }

  /** At a voltage that is one of the table's keys the lookup returns that
      point's SoC, because keys are distinct. */
  lemma NearestAtCalibrationPoint(t: seq<CalPoint>, k: int)
    requires StrictlyDescending(t)
    requires 0 <= k < |t|
    ensures NearestIndex(t, t[k].voltage) == k
    ensures NearestSoc(t, t[k].voltage) == t[k].soc
  {
    var v := t[k].voltage;
    forall j | 0 <= j < k
      ensures Distance(t[k], v) < Distance(t[j], v)
    {
      assert t[j].voltage > t[k].voltage;
    }
    NearestIndexCharacterized(t, v, k);
  }

  /** On a curve with strictly decreasing voltages and non-increasing SoC, a
      higher measured voltage never yields a lower looked-up SoC. */
  lemma NearestSocMonotone(t: seq<CalPoint>, v1: real, v2: real)
    requires StrictlyDescending(t) && SocNonIncreasing(t)
    requires |t| > 0
    requires v1 <= v2
    ensures NearestSoc(t, v1) <= NearestSoc(t, v2)
  {
    var i1 := NearestIndex(t, v1);
    var i2 := NearestIndex(t, v2);
    // Were i1 < i2, t[i1] would lie above t[i2]; v2 would strictly prefer the
    // lower point and v1 weakly prefer the higher one, putting v1 above v2.
    assert i2 <= i1;
  }

  /** The system-voltage table lookup of the estimator. */
  function SystemVoltageTableSoc(voltage: real): (r: real)
    ensures exists i :: IsFirstNearest(SystemTable(), voltage, i) && r == SystemTable()[i].soc
    ensures 0.0 <= r <= 100.0
  {
    NearestSoc(SystemTable(), voltage)
  }

  /** 787.95 V is a calibration point, and reads back as 50%. */
  lemma SystemLookupAtCalibrationPoint()
    ensures SystemVoltageTableSoc(787.95) == 50.0
  {
    var t := SystemTable();
    SystemTableIsCurve();
    assert t[10] == CalPoint(787.95, 50.0);
    NearestAtCalibrationPoint(t, 10);
  }

  /** 805.0 V is 0.4 V from 804.60 V and 5 V from 810.00 V, so it reads as 95%. */
  lemma SystemLookupBetweenPoints()
    ensures SystemVoltageTableSoc(805.0) == 95.0
  {
    var t := SystemTable();
    SystemTableIsCurve();
    assert IsFirstNearest(t, 805.0, 1) by {
      forall j | 0 <= j < |t|
        ensures Distance(t[1], 805.0) <= Distance(t[j], 805.0)
      {
        if j >= 2 {
          assert t[j].voltage <= t[2].voltage;
        }
      }
    }
    NearestIndexCharacterized(t, 805.0, 1);
  }

  /** 798.6 V is exactly midway between 799.20 V and 798.00 V; the tie goes to
      the earlier, higher-voltage point, so it reads as 85%. */
  lemma SystemLookupTieGoesToHigherVoltage()
    ensures SystemVoltageTableSoc(798.6) == 85.0
  {
    var t := SystemTable();
    SystemTableIsCurve();
    assert IsFirstNearest(t, 798.6, 3) by {
      forall j | 0 <= j < |t|
        ensures Distance(t[3], 798.6) <= Distance(t[j], 798.6)
      {
        if j >= 5 {
          assert t[j].voltage <= t[5].voltage;
        } else if j < 3 {
          assert t[j].voltage >= t[2].voltage;
        }
      }
      forall j | 0 <= j < 3
        ensures Distance(t[3], 798.6) < Distance(t[j], 798.6)
      {
        assert t[j].voltage >= t[2].voltage;
      }
    }
    NearestIndexCharacterized(t, 798.6, 3);
  }

  /** The table reads 10% at 771.05 V, where the system-voltage interpolation,
      whose 10% point is 769.20 V, already gives more than 10%. */
  lemma SystemVoltageEstimatesDisagree()
    ensures SystemVoltageSoc(771.05) > FloorSoc
    ensures SystemVoltageTableSoc(771.05) == 10.0
  {
    assert SystemVoltageSoc(771.05) > FloorSoc by {
      InterpolateOnLine(771.05, MinSystemVoltage, MaxSystemVoltage, FloorSoc, FullSoc);
    }
    var t := SystemTable();
    SystemTableIsCurve();
    assert t[18] == CalPoint(771.05, 10.0);
    NearestAtCalibrationPoint(t, 18);
  }

  /** Monotonicity of the system-table lookup in the measured voltage. */
  lemma SystemVoltageTableSocMonotone(v1: real, v2: real)
    requires v1 <= v2
    ensures SystemVoltageTableSoc(v1) <= SystemVoltageTableSoc(v2)
  {
    SystemTableIsCurve();
    NearestSocMonotone(SystemTable(), v1, v2);
  }
}

=== FILE: real_arith.dfy ===
/** Small facts about real arithmetic shared by the estimators. */
module RealArith {

  /** Absolute value, as Python's `abs` on a float. */
  function Abs(x: real): (r: real)
    ensures r >= 0.0
    ensures r == x || r == -x
  {
    if x < 0.0 then -x else x
  }

  /** Dividing by a positive number and scaling by a non-negative one keep order. */
  lemma ScaleMonotone(x: real, y: real, d: real, k: real)
    requires x <= y
    requires d > 0.0
    requires k >= 0.0
    ensures x / d * k <= y / d * k
  {
    assert y / d - x / d == (y - x) / d;
    assert (y - x) / d >= 0.0;
    assert y / d * k - x / d * k == (y / d - x / d) * k;
  }

  /** A positive quotient scaled by a non-negative factor is non-negative and
      does not exceed the factor when the dividend does not exceed the divisor. */
  lemma FractionScaleBounds(x: real, d: real, k: real)
    requires 0.0 <= x <= d
    requires d > 0.0
    requires k >= 0.0
    ensures 0.0 <= x / d * k <= k
  {
    assert x / d <= 1.0;
    assert x / d * k <= 1.0 * k;
  }

  /** Bounds on a total give the same bounds on its average over `n > 0` parts. */
  lemma AverageBounds(total: real, n: real, lo: real, hi: real)
    requires n > 0.0
    requires n * lo <= total <= n * hi
    ensures lo <= total / n <= hi
    ensures total / n * n == total
  {
    assert n * lo / n == lo;
    assert n * hi / n == hi;
  }

  /** Scaling a quotient of at least one by a non-negative factor gives at
      least that factor. */
  lemma QuotientScaleAtLeast(x: real, d: real, k: real)
    requires 0.0 < d <= x
    requires k >= 0.0
    ensures x / d * k >= k
  {
    var q := x / d;
    assert q * d == x;
    assert q >= 1.0;
    assert q * k - k == (q - 1.0) * k;
  }

  /** `total / n` for a positive `n`; multiplying back by `n` recovers `total`. */
  function Quotient(total: real, n: real): (q: real)
    requires n > 0.0
    ensures q * n == total
  {
    total / n
  }
}

=== FILE: soc_estimator.dfy ===
/** The estimator as a whole: one snapshot of the form inputs in, the
    per-method estimates, their blended SoC and the imbalance diagnostic out. */
module SocEstimator {
  import opened Wrappers
  import opened RealArith
  import opened Calibration
  import opened Interpolation
  import opened NearestLookup
  import opened Estimators
  import opened Blend
  import opened Diagnostics

  /** One snapshot of the inputs; a reading left untouched takes the form's
      minimum for that field (0 for the optional energy, current and uptime
      readings, 2 V for the two cell readings). */
  datatype Measurements = Measurements(
    systemVoltage: real,
    cellVoltage: real,
    packVoltage: real,
    remainingKwh: real,
    usedKwh: real,
    currentA: real,
    uptimeHours: real,
    minCellVoltage: real,
    maxCellVoltage: real)

  /** The range the input form accepts for each reading. */
  ghost predicate WithinInputBounds(m: Measurements) {
    && 760.0 <= m.systemVoltage <= 820.0
    && 3.0 <= m.cellVoltage <= 3.5
    && 50.0 <= m.packVoltage <= 60.0
    && 0.0 <= m.remainingKwh <= CapacityKwh
    && 0.0 <= m.usedKwh <= CapacityKwh
    && 0.0 <= m.currentA
    && 0.0 <= m.uptimeHours
    && 2.0 <= m.minCellVoltage <= 4.0
    && 2.0 <= m.maxCellVoltage <= 4.0
  }

  /** The per-method estimates: four voltage-based ones that always exist and
      three that depend on optional readings. */
  datatype Breakdown = Breakdown(
    systemInterpolated: real,
    systemTable: real,
    cell: real,
    pack: real,
    remaining: Option<real>,
    used: Option<real>,
    fromCurrent: Option<real>)

  /** Every estimate the source computes for one snapshot. */
  function Estimate(m: Measurements): (b: Breakdown)
    ensures FloorSoc <= b.systemInterpolated <= FullSoc
    ensures FloorSoc <= b.cell <= FullSoc
    ensures FloorSoc <= b.pack <= FullSoc
    ensures 0.0 <= b.systemTable <= 100.0
    ensures b.remaining.Some? <==> m.remainingKwh > 0.0
    ensures b.used.Some? <==> m.usedKwh > 0.0
    ensures b.fromCurrent.Some? <==> m.currentA > 0.0 && m.uptimeHours > 0.0
    ensures WithinInputBounds(m) && b.remaining.Some? ==> 0.0 < b.remaining.value <= 100.0
    ensures WithinInputBounds(m) && b.used.Some? ==> 0.0 <= b.used.value < 100.0
    ensures WithinInputBounds(m) && b.fromCurrent.Some? ==> b.fromCurrent.value < 100.0
  {
    Breakdown(
      SystemVoltageSoc(m.systemVoltage),
      SystemVoltageTableSoc(m.systemVoltage),
      CellVoltageSoc(m.cellVoltage),
      PackVoltageSoc(m.packVoltage),
      RemainingEnergySoc(m.remainingKwh),
      UsedEnergySoc(m.usedKwh),
      CurrentSoc(m.systemVoltage, m.currentA, m.uptimeHours))
  }

  /** The table estimate is the lookup of the system voltage. */
  lemma EstimateTableWiring(m: Measurements)
    ensures exists i :: IsFirstNearest(SystemTable(), m.systemVoltage, i)
                        && Estimate(m).systemTable == SystemTable()[i].soc
  {
    assert Estimate(m).systemTable == SystemVoltageTableSoc(m.systemVoltage);
  }

  /** Each interpolated estimate reads its own channel: the system, average
      cell and pack voltage, each against its own calibrated range. Inside the
      range it lies on that range's line; outside it is clamped to 10 or 100. */
  lemma EstimateVoltageWiring(m: Measurements)
    ensures m.systemVoltage <= MinSystemVoltage ==> Estimate(m).systemInterpolated == FloorSoc
    ensures MaxSystemVoltage <= m.systemVoltage ==> Estimate(m).systemInterpolated == FullSoc
    ensures MinSystemVoltage <= m.systemVoltage <= MaxSystemVoltage ==>
      (Estimate(m).systemInterpolated - FloorSoc) * (MaxSystemVoltage - MinSystemVoltage)
      == (m.systemVoltage - MinSystemVoltage) * (FullSoc - FloorSoc)
    ensures m.cellVoltage <= MinCellVoltage ==> Estimate(m).cell == FloorSoc
    ensures MaxCellVoltage <= m.cellVoltage ==> Estimate(m).cell == FullSoc
    ensures MinCellVoltage <= m.cellVoltage <= MaxCellVoltage ==>
      (Estimate(m).cell - FloorSoc) * (MaxCellVoltage - MinCellVoltage)
      == (m.cellVoltage - MinCellVoltage) * (FullSoc - FloorSoc)
    ensures m.packVoltage <= MinPackVoltage ==> Estimate(m).pack == FloorSoc
    ensures MaxPackVoltage <= m.packVoltage ==> Estimate(m).pack == FullSoc
    ensures MinPackVoltage <= m.packVoltage <= MaxPackVoltage ==>
      (Estimate(m).pack - FloorSoc) * (MaxPackVoltage - MinPackVoltage)
      == (m.packVoltage - MinPackVoltage) * (FullSoc - FloorSoc)
  {
    var b := Estimate(m);
    assert b.systemInterpolated == InterpolateSoc(m.systemVoltage, MinSystemVoltage, MaxSystemVoltage, FloorSoc, FullSoc);
    assert b.cell == InterpolateSoc(m.cellVoltage, MinCellVoltage, MaxCellVoltage, FloorSoc, FullSoc);
    assert b.pack == InterpolateSoc(m.packVoltage, MinPackVoltage, MaxPackVoltage, FloorSoc, FullSoc);
    if MinSystemVoltage <= m.systemVoltage <= MaxSystemVoltage {
      InterpolateOnLine(m.systemVoltage, MinSystemVoltage, MaxSystemVoltage, FloorSoc, FullSoc);
    }
    if MinCellVoltage <= m.cellVoltage <= MaxCellVoltage {
      InterpolateOnLine(m.cellVoltage, MinCellVoltage, MaxCellVoltage, FloorSoc, FullSoc);
    }
    if MinPackVoltage <= m.packVoltage <= MaxPackVoltage {
      InterpolateOnLine(m.packVoltage, MinPackVoltage, MaxPackVoltage, FloorSoc, FullSoc);
    }
  }

  /** The energy estimates read the remaining-energy and energy-used readings. */
  lemma EstimateEnergyWiring(m: Measurements)
    ensures Estimate(m).remaining.Some? ==> Estimate(m).remaining.value * CapacityKwh == m.remainingKwh * 100.0
    ensures Estimate(m).used.Some? ==> (100.0 - Estimate(m).used.value) * CapacityKwh == m.usedKwh * 100.0
  {
    var remaining, used := RemainingEnergySoc(m.remainingKwh), UsedEnergySoc(m.usedKwh);
    assert Estimate(m).remaining == remaining;
    assert Estimate(m).used == used;
  }

  /** The current-based estimate draws energy at the system voltage, with the
      average current and the uptime. */
  lemma EstimateCurrentWiring(m: Measurements)
    ensures Estimate(m).fromCurrent == CurrentSoc(m.systemVoltage, m.currentA, m.uptimeHours)
    ensures Estimate(m).fromCurrent.Some? <==> m.currentA > 0.0 && m.uptimeHours > 0.0
  {
    var b := Estimate(m);
    var c := CurrentSoc(m.systemVoltage, m.currentA, m.uptimeHours);
    assert b.fromCurrent == c;
  }

  /** Number of optional estimates that are present. */
  function OptionalCount(b: Breakdown): (n: nat)
    ensures n <= 3
  {
    Present(b.remaining) + Present(b.used) + Present(b.fromCurrent)
  }

  /** The list the blend averages: the four voltage-based estimates in fixed
      order, then remaining-energy, energy-used and current-based, each only
      if present. */
  function BlendInputs(b: Breakdown): (e: seq<real>)
    ensures 4 <= |e| <= 7
    ensures |e| == 4 + OptionalCount(b)
    ensures e[..4] == [b.systemInterpolated, b.systemTable, b.cell, b.pack]
    ensures b.remaining.Some? ==> e[4] == b.remaining.value
    ensures b.used.Some? ==> e[4 + Present(b.remaining)] == b.used.value
    ensures b.fromCurrent.Some? ==> e[|e| - 1] == b.fromCurrent.value
  {
    var always := [b.systemInterpolated, b.systemTable, b.cell, b.pack];
    var withRemaining := if b.remaining.Some? then always + [b.remaining.value] else always;
    var withUsed := if b.used.Some? then withRemaining + [b.used.value] else withRemaining;
    if b.fromCurrent.Some? then withUsed + [b.fromCurrent.value] else withUsed
  }

  /** Every entry of the blend is one of the breakdown's estimates. */
  lemma BlendInputsComeFromBreakdown(b: Breakdown, i: int)
    requires 0 <= i < |BlendInputs(b)|
    ensures var x := BlendInputs(b)[i];
      || x == b.systemInterpolated || x == b.systemTable || x == b.cell || x == b.pack
      || (b.remaining.Some? && x == b.remaining.value)
      || (b.used.Some? && x == b.used.value)
      || (b.fromCurrent.Some? && x == b.fromCurrent.value)
  {
  }

  /** The blended SoC of a breakdown: the mean of its blend inputs, rounded
      to two decimals. */
  function FinalSoc(b: Breakdown): (r: real)
    ensures r * 100.0 == Hundredths(Mean(BlendInputs(b))) as real
    ensures Abs(r - Mean(BlendInputs(b))) <= 0.005
    ensures Min(BlendInputs(b)) - 0.005 <= r <= Max(BlendInputs(b)) + 0.005
  {
    RoundedMean(BlendInputs(b))
  }

  /** Within the form's input bounds the blended SoC never exceeds 100%; it
      is also never negative unless the unclamped current-based estimate
      takes part. */
  lemma FinalSocBounds(m: Measurements)
    requires WithinInputBounds(m)
    ensures FinalSoc(Estimate(m)) <= 100.0
    ensures Estimate(m).fromCurrent.None? ==> 0.0 <= FinalSoc(Estimate(m))
  {
    var e := BlendInputs(Estimate(m));
    var b := Estimate(m);
    forall i | 0 <= i < |e|
      ensures e[i] <= 100.0
      ensures b.fromCurrent.None? ==> 0.0 <= e[i]
    {
      BlendInputsComeFromBreakdown(b, i);
    }
    MeanWithinRange(e);
    RoundTwoDecimalsAtMost(Mean(e), 10000);
    if b.fromCurrent.None? {
      RoundTwoDecimalsAtLeast(Mean(e), 0);
    }
  }

  /** Everything the dashboard reports for one snapshot. */
  datatype Report = Report(finalSoc: real, breakdown: Breakdown, imbalance: Option<Imbalance>)

  function Run(m: Measurements): (r: Report)
    ensures r.breakdown == Estimate(m)
    ensures r.finalSoc == FinalSoc(r.breakdown)
    ensures r.imbalance.Some? <==> m.minCellVoltage > 0.0 && m.maxCellVoltage > 0.0
    ensures r.imbalance.Some? ==> r.imbalance.value.deltaMv / 1000.0 == m.maxCellVoltage - m.minCellVoltage
    ensures r.imbalance.Some? ==> (r.imbalance.value.warn <==> m.maxCellVoltage - m.minCellVoltage > 0.02)
  {
    var b := Estimate(m);
    Report(FinalSoc(b), b, CellImbalance(m.minCellVoltage, m.maxCellVoltage))
  }

  /** The form's lower bound of 2 V on both cell readings means the imbalance
      guard always passes for accepted input. */
  lemma ImbalanceAlwaysReported(m: Measurements)
    requires WithinInputBounds(m)
    ensures Run(m).imbalance.Some?
  {
  }
}

=== FILE: wrappers.dfy ===
/** Optional values: the model's stand-in for an estimate that the source
    leaves as `None` when its guard input is not positive. */
module Wrappers {

  datatype Option<+T> = None | Some(value: T)

  /** 1 for a present value, 0 for an absent one. */
  function Present<T>(o: Option<T>): (n: nat)
    ensures n <= 1
    ensures n == 1 <==> o.Some?
  {
    if o.Some? then 1 else 0
  }
}
